=== FILE: README.md ===
# Verified model of the MindWell stress predictor

MindWell is a student stress-monitoring web app. Students answer a ten-question
questionnaire, keep tasks and a journal, and submit physiological sensor
readings. A pre-trained classifier turns those readings into a stress class:
Amused, Neutral or Stressed. This project models the app's sequential logic
in Dafny and proves properties of it:

- **The classifier wrapper** (`Predictor`). A predictor has two states: unloaded, or holding a model.
  - It keeps a label map (class index to class name) and an ordered feature schema.
  - Loading reads three side files. Each file's outcome is an input: missing, raising, or parsed content.
  - Predicting turns a name-to-value dictionary into a vector in schema order, with 0 for missing names.
  - It then asks an opaque classifier, which is a function parameter, and names the answer through the label map.
  - Label-file keys go through Python's `int()`, modelled in `PyInt`.
- **The view rules** (`Views`).
  - Questionnaire scoring, with bands at 35 and 65.
  - The dashboard chart series.
  - The feature dictionary that the sensor form sends to the predictor, and how its answer is stored.
  - The task completion toggle.
  - Journal ownership and visibility.
- **The stored records** (`Records`): field defaults and the text each record shows for itself.
- **Queryset steps** (`Query`): `filter`, `order_by('-created_at')`, `[:n]` and `[::-1]`, over sequences.

Feature values and probabilities are `real`. The wrapper does no arithmetic on them.
Database tables are sequences, or for tasks a map from primary key to record.

## Model

| member | source | states |
|---|---|---|
| Predictor.Unloaded | stress_project_extended/predictor/ml_predictor.py:11-18 | a new predictor holds no model, the label map {0: Amused, 1: Neutral, 2: Stressed} and the 15-name default schema |
| Predictor.LoadModel | stress_project_extended/predictor/ml_predictor.py:21-52 | without a usable model file the call fails and nothing changes; whatever the model file unpickles to, `None` included, is kept even when a later step raises; success holds exactly when no step raised; a present label file that converts replaces the whole map, otherwise the map is kept; a present feature file replaces the whole schema on success |
| Predictor.LoadFeatures | stress_project_extended/predictor/ml_predictor.py:44-49 | the feature step fails only when the file raises; a present file replaces the schema and a missing one keeps it; the model and the labels are untouched |
| Predictor.IsLoaded | stress_project_extended/predictor/ml_predictor.py:87-89 | a predictor counts as loaded exactly when its model is not `None` |
| Predictor.New | stress_project_extended/predictor/ml_predictor.py:11-19 | construction discards the load's verdict: the predictor is loaded iff the model file unpickled to an object; with no usable model file it is exactly the default state; its labels are the converted label file when one converts, and the defaults otherwise; its schema is the feature file's list when the load succeeds with one, and the default schema otherwise |
| Predictor.NewWithoutModelFile | stress_project_extended/predictor/ml_predictor.py:11-19 | with no model file, construction reports failure, leaves the predictor unloaded and keeps both defaults |
| Predictor.NewWithModelOnly | stress_project_extended/predictor/ml_predictor.py:29-49 | with a model file and neither side file, the load succeeds and keeps both defaults; the predictor is loaded unless the file held `None` |
| Predictor.LoadSuccessIsLoaded | stress_project_extended/predictor/ml_predictor.py:29-49 | after a successful load the predictor is loaded exactly when the model file held an object rather than `None` |
| Predictor.LoadSuccessCanLeaveUnloaded | stress_project_extended/predictor/ml_predictor.py:29-49 | a model file that unpickles to `None` gives a successful load that leaves `is_loaded()` false |
| Predictor.LoadFailureCanLeaveLoaded | stress_project_extended/predictor/ml_predictor.py:31-52 | when the label file raises after the model loaded, the call reports failure yet the predictor reports itself loaded |
| Predictor.LoadFailsOnNonIntegerLabelKey | stress_project_extended/predictor/ml_predictor.py:38-42 | a label key that is not an integer makes the load fail; the model stays set and the default labels stay |
| Predictor.LoadModelAtomic | stress_project_extended/predictor/ml_predictor.py:21-52 | corrected load: it succeeds when the original succeeds and a model is held; a failure leaves the predictor exactly as it was |
| Predictor.AtomicLoadReportsLoaded | stress_project_extended/predictor/ml_predictor.py:29-52 | with the corrected load from a fresh predictor, success holds iff the predictor ends up loaded |
| Predictor.ConvertLabels | stress_project_extended/predictor/ml_predictor.py:42 | label conversion succeeds iff every key passes Python's `int()` |
| Predictor.ConvertKeys | stress_project_extended/predictor/ml_predictor.py:42 | every key is converted with `int()`, keeping the items' order |
| Predictor.Assemble | stress_project_extended/predictor/ml_predictor.py:42 | the map is assembled entry by entry and fails iff some key did not convert |
| Predictor.AssembleContents | stress_project_extended/predictor/ml_predictor.py:42 | an assembled map's domain is exactly the converted keys; each key maps to the name of the last entry that converts to it |
| Predictor.ConvertLabelsContents | stress_project_extended/predictor/ml_predictor.py:38-42 | a converted label file replaces the map wholesale: its keys are exactly the converted keys, and where several keys convert to the same integer (such as "0" and " 0"), the later item wins |
| Predictor.EncodeLabels | stress_project_extended/predictor/model/train_model.py:49-57 | the label file the training script writes holds one entry per class, keyed by `str(index)` |
| Predictor.ConvertEncodedLabels | stress_project_extended/predictor/ml_predictor.py:42 | a label map written out as JSON converts back to the same map |
| Predictor.TrainedLabelsAreDefault | stress_project_extended/predictor/model/train_model.py:49-57 | the label file written by training converts to the default three-class map |
| Predictor.Vectorize | stress_project_extended/predictor/ml_predictor.py:69 | the vector has one entry per schema name, in schema order: the dictionary's value where the key is present, 0 where it is not |
| Predictor.VectorizeIgnoresOtherKeys | stress_project_extended/predictor/ml_predictor.py:69 | keys outside the schema never affect the vector |
| Predictor.Confidence | stress_project_extended/predictor/ml_predictor.py:80 | the confidence map exists iff every probability position has a label; otherwise the lookup raises |
| Predictor.ConfidenceContents | stress_project_extended/predictor/ml_predictor.py:80 | the confidence map's keys are exactly the labels of positions 0..n-1; each maps to the probability of the last position with that name |
| Predictor.ConfidencePairsPositions | stress_project_extended/predictor/ml_predictor.py:80 | when labels are distinct, every position's label maps to that position's own probability |
| Predictor.DefaultConfidence | stress_project_extended/predictor/ml_predictor.py:80 | with the default labels and three probabilities, the key set is exactly {Amused, Neutral, Stressed}, each with its own probability |
| Predictor.LabelFor | stress_project_extended/predictor/ml_predictor.py:77 | the label is the map's name for the predicted index, or 'Unknown' when the map has none |
| Predictor.Predict | stress_project_extended/predictor/ml_predictor.py:54-85 | with no model the result is ('Model not loaded', None); a raising classifier or an unlabelled probability position gives ('Prediction error', None); otherwise the result is the predicted index's label with the confidence map; every label is a class name, 'Unknown' or a sentinel, and a sentinel never carries confidences |
| Predictor.PredictUnloadedIgnoresClassifier | stress_project_extended/predictor/ml_predictor.py:64-65 | with no model, no classifier is consulted: any two classifiers give the same sentinel |
| Predictor.RequiredFeatures | stress_project_extended/predictor/ml_predictor.py:91-93 | `get_required_features` hands out the predictor's current schema |
| Predictor.RequiredFeaturesFillVector | stress_project_extended/predictor/ml_predictor.py:91-93 | when the dictionary supplies every required feature, the classifier sees those values in the returned order |
| Predictor.PredictDependsOnlyOnRequired | stress_project_extended/predictor/ml_predictor.py:91-93 | dictionaries that agree on the required features give the same prediction |
| Predictor.GetPredictor | stress_project_extended/predictor/ml_predictor.py:96-103 | an empty slot is filled with a newly built predictor; a filled slot returns its own predictor; the slot then holds the returned predictor |
| Predictor.GetPredictorOnce | stress_project_extended/predictor/ml_predictor.py:98-103 | after the first call, every later call returns the same predictor, whatever the files now hold |
| PyInt.Parse | stress_project_extended/predictor/ml_predictor.py:42 | `int(k)` succeeds only when something remains after stripping whitespace; a plain digit run converts to its decimal value |
| PyInt.ParseShow | stress_project_extended/predictor/model/train_model.py:57 | `int(str(n)) == n` for every integer |
| PyInt.ParseIgnoresSurroundingSpace | stress_project_extended/predictor/ml_predictor.py:42 | keys that differ only in surrounding whitespace convert alike |
| PyInt.ParseRejectsWord | stress_project_extended/predictor/ml_predictor.py:42 | a key whose first non-whitespace character is neither a digit nor a sign (a word in either case, with or without surrounding whitespace) is not an integer |
| Query.Filter | stress_project_extended/predictor/views.py:117 | the filter keeps exactly the matching records, each as often as it occurs in the input, and nothing else |
| Query.FilterConcat | stress_project_extended/predictor/views.py:117 | filtering keeps the input order: the result for a concatenation is the results for its parts, in order |
| Query.SortNewestFirst | stress_project_extended/predictor/views.py:117 | ordering by `-created_at` is a permutation whose keys do not increase |
| Query.Take | stress_project_extended/predictor/views.py:117 | the slice `[:n]` is a prefix of length min(n, len) |
| Query.Reverse | stress_project_extended/predictor/views.py:122-123 | `[::-1]` puts element len-1-k at position k |
| Query.Recent | stress_project_extended/predictor/views.py:117 | filter, newest first, at most `limit`: every shown record matches the filter, and no record is shown more often than it is stored; exactly min(`limit`, number of matches) records are shown |
| Query.RecentKeepsNewest | stress_project_extended/predictor/views.py:182 | a matching record is left out only when `limit` records at least as new are shown |
| Query.RecentShowsAllWhenFew | stress_project_extended/predictor/views.py:182 | with at most `limit` matching records, all of them are shown |
| Records.LevelOrPending | stress_project_extended/predictor/models.py:21 | `level or 'Pending'`: a null or empty level shows as 'Pending'; any other level shows as itself |
| Records.NewResponse | stress_project_extended/predictor/models.py:5-18 | a newly saved response holds the ten answers and no level |
| Records.ResponseDisplay | stress_project_extended/predictor/models.py:20-21 | the display is the username, ' - ', then the level or 'Pending' |
| Records.ResponseDisplayPending | stress_project_extended/predictor/models.py:21 | a response shows as pending iff its level is null, empty or literally 'Pending' |
| Records.Reading | stress_project_extended/predictor/models.py:27-50 | exactly the 15 measurement columns name a value |
| Records.NewPhysiologicalData | stress_project_extended/predictor/models.py:53-56 | a new reading keeps its measurements and has a null level and null confidences |
| Records.PhysiologicalDisplay | stress_project_extended/predictor/models.py:60-61 | the display is the username, ' - ', the level or 'Pending', ' at ', then the timestamp |
| Records.NewPhysiologicalDisplayPending | stress_project_extended/predictor/models.py:53-61 | a freshly saved submission shows as 'username - Pending at time' |
| Records.NewTask | stress_project_extended/predictor/models.py:75 | a new task is not completed |
| Records.TaskDisplay | stress_project_extended/predictor/models.py:77-78 | a task's display starts with its title, then ' - ' |
| Records.TaskDisplayDone | stress_project_extended/predictor/models.py:78 | a task shows 'Done' iff it is completed, and 'Pending' iff it is not |
| Records.NewJournalEntry | stress_project_extended/predictor/models.py:81-82 | a new journal entry is not anonymous and has no user |
| Records.JournalAuthor | stress_project_extended/predictor/models.py:86 | the author is 'Anonymous' if the flag is set or no user is attached; otherwise it is the username |
| Records.JournalDisplay | stress_project_extended/predictor/models.py:85-87 | the display is the author, ' - ', then the date |
| Records.JournalAuthorAnonymous | stress_project_extended/predictor/models.py:86 | an entry shows as 'Anonymous' iff the flag is set, or it has no user, or its user is called 'Anonymous' |
| Views.SumConcat | stress_project_extended/predictor/views.py:57 | the total of a concatenation is the sum of the two totals |
| Views.SumPermutation | stress_project_extended/predictor/views.py:56-57 | the same answers in any order give the same total |
| Views.SumMonotone | stress_project_extended/predictor/views.py:57 | raising some answers never lowers the total |
| Views.StressBand | stress_project_extended/predictor/views.py:58-63 | a total of at most 35 is Low Stress, 36..65 is Medium Stress, and above 65 is High Stress; the bands are exclusive and cover every integer |
| Views.Score | stress_project_extended/predictor/views.py:56-63 | the level is Low Stress iff the ten answers total at most 35, Medium Stress iff 36..65, High Stress iff above 65; nothing else about the response changes |
| Views.ScoreDependsOnlyOnTotal | stress_project_extended/predictor/views.py:56-63 | responses with the same total get the same level |
| Views.ScoreIgnoresAnswerOrder | stress_project_extended/predictor/views.py:56-63 | responses whose answers are permutations of each other get the same level |
| Views.ChartValue | stress_project_extended/predictor/views.py:123 | the chart number is 1 iff the level is Low Stress, 2 iff it is Medium Stress, and 3 otherwise, including a null level |
| Views.ChartValueMonotone | stress_project_extended/predictor/views.py:123 | the chart number of the band never decreases as the total grows |
| Views.ScoreMonotone | stress_project_extended/predictor/views.py:56-63 | raising answers never lowers the charted level |
| Views.RecentResponses | stress_project_extended/predictor/views.py:117 | the chart uses exactly min(30, the viewer's response count) of the viewer's own stored responses, newest first, none repeated beyond its stored copies |
| Views.RecentResponsesKeepsNewest | stress_project_extended/predictor/views.py:117 | one of the viewer's responses is left off the chart only when 30 responses at least as new are on it |
| Views.DashboardChart | stress_project_extended/predictor/views.py:122-123 | the two chart series have equal length, at most 30; point k of each comes from the same response, the recent list read backwards |
| Views.DashboardChartOldestFirst | stress_project_extended/predictor/views.py:117-123 | chart points run oldest first |
| Views.FeaturesDict | stress_project_extended/predictor/views.py:80-90 | the feature dictionary has exactly the eight keys Resp_mean, Resp_std, TEMP_mean, TEMP_std, TEMP_slope, age, height and weight, each holding the submitted value of that column |
| Views.OnlyForwardedReachClassifier | stress_project_extended/predictor/views.py:80-90 | with the default schema, the classifier sees the submitted value in the eight forwarded slots and 0 in every other slot |
| Views.UnforwardedSlotIsZero | stress_project_extended/predictor/views.py:80-90 | a schema slot whose name is not forwarded is 0 in the vector |
| Views.NoBvpEdaForwarded | stress_project_extended/predictor/views.py:80-90 | no BVP_ or EDA_ name is forwarded |
| Views.BvpEdaNeverForwarded | stress_project_extended/predictor/views.py:80-90 | under any schema, every BVP_ and EDA_ slot of the vector is 0, whatever was submitted |
| Views.DefaultSchemaBvpEdaSlots | stress_project_extended/predictor/ml_predictor.py:14-18 | the BVP and EDA names of the default schema sit in slots 0-5 and 11 and nowhere else |
| Views.DefaultVectorDropsBvpEda | stress_project_extended/predictor/views.py:80-90 | under the default schema, slots 0-5 and 11 of the classifier's vector are 0 whatever the BVP and EDA readings were |
| Views.MlPredictIgnoresBvpEda | stress_project_extended/predictor/views.py:80-99 | submissions that differ only in their BVP and EDA readings get the same verdict and confidences |
| Views.MlPredict | stress_project_extended/predictor/views.py:93-101 | a loaded predictor's label is stored; its confidences are stored, each read with default 0, only when the map is present and non-empty; otherwise the confidence fields are untouched; an unloaded predictor stores 'Model not available'; measurements, user and time never change |
| Views.NotAvailableIsNotNotLoaded | stress_project_extended/predictor/views.py:101 | the view's 'Model not available' differs from the predictor's 'Model not loaded' |
| Views.SentinelLeavesConfidenceNull | stress_project_extended/predictor/views.py:96-99 | a new submission that gets a sentinel result keeps all three confidences null |
| Views.FullFeaturesDict | stress_project_extended/predictor/models.py:27-50 | corrected dictionary: all 15 columns, each with its submitted value |
| Views.ReadingColumnsMatchDefaultSchema | stress_project_extended/predictor/models.py:27-50 | the 15 measurement columns are exactly the names of the default schema |
| Views.FullFeaturesFillDefaultSchema | stress_project_extended/predictor/ml_predictor.py:14-18 | with the corrected dictionary, every slot of the default-schema vector holds the submitted reading for that name |
| Views.TaskToggle | stress_project_extended/predictor/views.py:166-170 | a task not owned by the requester, or a missing task, gives not-found; otherwise only the task's `completed` flag flips and every other task is unchanged |
| Views.TaskToggleTwice | stress_project_extended/predictor/views.py:166-170 | toggling the same task twice restores the table |
| Views.TaskToggleDisplay | stress_project_extended/predictor/views.py:168 | toggling switches the task's display between 'Done' and 'Pending' |
| Views.JournalAdd | stress_project_extended/predictor/views.py:192-195 | the requester is attached only to a non-anonymous entry; nothing else changes |
| Views.SubmitJournal | stress_project_extended/predictor/views.py:190-195 | a submitted entry keeps the form's flag, content and time |
| Views.SubmitJournalAuthor | stress_project_extended/predictor/views.py:193-194 | a submitted entry shows its author's name, or 'Anonymous' when marked so; an anonymous entry has no user |
| Views.Visible | stress_project_extended/predictor/views.py:180-184 | an entry is listed for a viewer when it is anonymous or belongs to the logged-in viewer; a visitor sees only anonymous entries |
| Views.SubmitJournalVisibility | stress_project_extended/predictor/views.py:182 | a submitted entry is visible to a viewer iff it is anonymous or the viewer is its author |
| Views.JournalList | stress_project_extended/predictor/views.py:181-184 | the list holds exactly min(50, visible entry count) stored entries, newest first, each anonymous or owned by the viewer, none repeated beyond its stored copies |
| Views.JournalListKeepsNewest | stress_project_extended/predictor/views.py:182 | a visible entry is left out only when 50 entries at least as new are shown |

## Left out

- Deserialising the classifier and calling `model.predict` / `predict_proba` are left out. The classifier is the function parameter `classify`, which returns either `Raised` or a class index with one probability per class. That probabilities sum to 1 is the classifier's promise, not the wrapper's.
- File-system checks, `open`, `json.load` and the `print` diagnostics are left out. Each side file's outcome is an input (`FileOutcome`). A read or parse that raises becomes `Raises`. The label file is given as the items of the dictionary `json.load` builds from it: distinct keys in order of first occurrence, each with the last value the file gives it, all values strings.
- PyInt.Parse models `int()` on ASCII text only. It does not cover Unicode digits or whitespace outside space, tab, newline, carriage return, vertical tab and form feed.
- `numpy` reshaping and `float(prob)` are left out. Values are `real` already, so neither changes anything.
- get_required_features returns a copy. This is not modelled as a separate step, because Dafny sequences are values: a caller cannot change the predictor's schema through the result. `Predictor.RequiredFeatures` has no contract of its own; its meaning is stated by `RequiredFeaturesFillVector` and `PredictDependsOnlyOnRequired`.
- Thread safety of the module-level singleton is left out. `GetPredictor` takes and returns the slot explicitly.
- Django requests, rendering, redirects, messages, authentication and `login_required` are left out. So are form validation, ORM persistence and `save()`. `get_object_or_404` becomes `None`. Querysets are sequences.
- Query.SortNewestFirst keeps equal timestamps in input order. The database promises no order among ties, so only sortedness and permutation are stated.
- Timestamps are inputs: `Timestamp(instant, text, date)`. The clock, `str(created_at)`, `created_at.date()` and `strftime('%Y-%m-%d')` are left out. The latter two render the same ISO date, modelled as `date`.
- `MoodEntry` is left out, together with its display "username - scale on date", `mood_add` and the dashboard's mood list. It is not one of the four records whose rules this model covers.
- The dashboard's ML-prediction list is left out. It applies the same filter / newest-first / 30 rule that `Views.RecentResponses` states, to the sensor records.
- `tasks_list` is left out: it orders a user's tasks by `('completed', 'due_date')` with no limit, which is presentation outside the modelled core.
- `task_add` is left out: it only saves a validated form with the requester attached.
- `task_delete` is left out. It deletes the requester's own task behind the same ownership lookup as `task_toggle`, which `Views.TaskToggle` models. Removing a key from the task map states nothing further.
- Signup, login and logout are left out.
- Predictor.LoadModel takes the feature file to hold a JSON list of strings. Other JSON values are not modelled:
  - An object acts as a schema of its keys: `predict` iterates over them, and `get_required_features` copies the object.
  - `null` or a number makes every later `predict` report 'Prediction error', and `get_required_features` raise.
- The static lists in `resources_view` and `breathing_videos`, `forms.py`, `urls.py`, `admin.py`, training, setup and the launcher are left out. The HTML min/max attributes on the questionnaire are client-side only, so the scoring model assumes no answer bounds.
- `ml_predict_view` reads integer columns into the dictionary as numbers alongside the float ones. The model treats every value as `real`.

## Findings

| source | as written | input that shows it | evidently intended | confidence | as-written member | corrected member |
|---|---|---|---|---|---|---|
| stress_project_extended/predictor/views.py:80-90 | the feature dictionary forwards only 8 of the 15 submitted readings, so the classifier receives 0 for all seven BVP and EDA features | any submission with a non-zero BVP_mean: its vector slot 0 is 0 | forward every reading the form collects and the schema expects | high (not executed) | Views.BvpEdaNeverForwarded | Views.FullFeaturesFillDefaultSchema |
| stress_project_extended/predictor/ml_predictor.py:31-52 | the model is stored before the label and feature files are read, so a later exception returns False while `is_loaded()` is true; the converse also occurs, since a model file holding a pickled `None` returns True while `is_loaded()` is false | model file loads, then the label file raises (or has a key such as "zero"); or a model file holding a pickled `None` with no side files | a load reports success exactly when it leaves a model in place, and a failed load leaves the predictor unloaded | medium (not executed) | Predictor.LoadFailureCanLeaveLoaded | Predictor.AtomicLoadReportsLoaded |

`Views.MlPredict` and `Predictor.LoadModel` model the code as written. `Views.FullFeaturesDict` and
`Predictor.LoadModelAtomic` are the corrected definitions. Each comes with its proved property.

=== FILE: optional.dfy ===
/** Optional values, standing in for Python's `None`, and the dictionary
    lookup with a default that the predictor and the views rely on. */
module Optional {

  /** A value that may be absent, like a nullable field or a `None` result. */
  datatype Option<+T> = None | Some(value: T)

  /** Python's `d.get(key, default)`. */
  function Get<K, V>(m: map<K, V>, key: K, default: V): (v: V)
    ensures key in m ==> v == m[key]
    ensures key !in m ==> v == default
  {
    if key in m then m[key] else default
  }
}

=== FILE: predictor.dfy ===
/** The stress-classifier wrapper: a predictor holds an optional
    pre-trained classifier, a label map from class index to class name and
    an ordered feature schema. Loading reads three side files, whose
    outcomes are inputs here; predicting turns a name-to-value dictionary
    into a vector in schema order, asks the classifier, and names the
    answer through the label map. The classifier itself is opaque: a
    function from a loaded model object and a vector to a class index and
    a probability per class, or an exception. */
module Predictor {
  import opened Optional
  import PyInt

  /** Class index to class name. */
  type LabelMap = map<int, string>

  /** The label map a new predictor starts with. */
  const DefaultLabels: LabelMap := map[0 := "Amused", 1 := "Neutral", 2 := "Stressed"]

  /** The feature schema a new predictor starts with: the training column order. */
  const DefaultFeatures: seq<string> := [
    "BVP_mean", "BVP_std", "EDA_phasic_mean", "EDA_phasic_min", "EDA_smna_min",
    "EDA_tonic_mean", "Resp_mean", "Resp_std", "TEMP_mean", "TEMP_std", "TEMP_slope",
    "BVP_peak_freq", "age", "height", "weight"]

  /** The label of a prediction made without a loaded model. */
  const NotLoaded: string := "Model not loaded"
  /** The label of a prediction that raised. */
  const PredictionError: string := "Prediction error"
  /** The label of a class index the label map does not name. */
  const Unknown: string := "Unknown"

  /** A predictor's whole state; `M` is the deserialised model object. */
  datatype Predictor<M> = Predictor(model: Option<M>, labels: LabelMap, features: seq<string>)

  /** What reading one side file gave: no such file, a read or parse that
      raised, or the parsed content. */
  datatype FileOutcome<T> = Missing | Raises | Parsed(content: T)

  /** The outcomes of the three side files. The model file unpickles to an
      object or to `None`; the label file is a JSON object, given as the
      items of the dictionary `json.load` builds from it: distinct keys in
      order of first occurrence, each with the last name the file gives it. */
  datatype ModelFiles<M> = ModelFiles(
    model: FileOutcome<Option<M>>,
    labels: FileOutcome<seq<(string, string)>>,
    features: FileOutcome<seq<string>>)

  /** What `load_model` returns, together with the predictor it leaves. */
  datatype LoadResult<M> = LoadResult(ok: bool, state: Predictor<M>)

  /** What the classifier answers for one vector: the predicted class index
      and one probability per class, or an exception. */
  datatype Inference = Raised | Inference(prediction: int, probabilities: seq<real>)

  /** Class name to probability. */
  type ConfidenceMap = map<string, real>

  /** A prediction: a label and, on success, its confidence map. */
  datatype Prediction = Prediction(name: string, confidence: Option<ConfidenceMap>)

  /** The state before `load_model` runs: no model, both defaults. */
  function Unloaded<M>(): (p: Predictor<M>)
    ensures !IsLoaded(p)
    ensures p.labels == DefaultLabels && p.features == DefaultFeatures
  {
    Predictor(None, DefaultLabels, DefaultFeatures)
  }

  /** `is_loaded()`: whether a model is held. */
  predicate IsLoaded<M>(p: Predictor<M>) {
    p.model.Some?
  }

  // ----------------------------------------------------------------- loading

  /** The label entries as the comprehension `{int(k): v ...}` builds them:
      `None` when some key is not an integer, where the comprehension raises. */
  function ConvertLabels(entries: seq<(string, string)>): (r: Option<LabelMap>)
    ensures r.Some? <==> forall i :: 0 <= i < |entries| ==> PyInt.Parse(entries[i].0).Some?
  {
    Assemble(ConvertKeys(entries), Names(entries))
  }

  /** `int(k)` of every key, in item order. */
  function ConvertKeys(entries: seq<(string, string)>): (keys: seq<Option<int>>)
    ensures |keys| == |entries|
    ensures forall i :: 0 <= i < |entries| ==> keys[i] == PyInt.Parse(entries[i].0)
  {
    seq(|entries|, i requires 0 <= i < |entries| => PyInt.Parse(entries[i].0))
  }

  /** Every entry's class name, in item order. */
  function Names(entries: seq<(string, string)>): (names: seq<string>)
    ensures |names| == |entries|
    ensures forall i :: 0 <= i < |entries| ==> names[i] == entries[i].1
  {
    seq(|entries|, i requires 0 <= i < |entries| => entries[i].1)
  }

  /** The map the comprehension assembles from converted keys and names,
      entry by entry; `None` at the first key that did not convert. */
  function Assemble(keys: seq<Option<int>>, names: seq<string>): (r: Option<LabelMap>)
    requires |keys| == |names|
    ensures r.Some? <==> forall i :: 0 <= i < |keys| ==> keys[i].Some?
  {
    if |keys| == 0 then Some(map[])
    else
      var n := |keys| - 1;
      assert forall i :: 0 <= i < n ==> keys[..n][i] == keys[i];
      match Assemble(keys[..n], names[..n])
      case None => None
      case Some(m) =>
        match keys[n]
        case None => None
        case Some(k) => Some(m[k := names[n]])
  }

  /** No later key converts to the same integer as key `i`. */
  ghost predicate LastWithKey(keys: seq<Option<int>>, i: int)
    requires 0 <= i < |keys|
  {
    forall j :: i < j < |keys| ==> keys[j] != keys[i]
  }

  /** An assembled map has exactly the converted keys, and each maps to the
      name of the last entry whose key converts to it. */
  lemma {:induction false} AssembleContents(keys: seq<Option<int>>, names: seq<string>)
    requires |keys| == |names|
    requires Assemble(keys, names).Some?
    ensures var m := Assemble(keys, names).value;
      && (forall i :: 0 <= i < |keys| ==> keys[i].value in m)
      && (forall k :: k in m ==> exists i :: 0 <= i < |keys| && keys[i] == Some(k))
      && (forall i :: 0 <= i < |keys| && LastWithKey(keys, i) ==> m[keys[i].value] == names[i])
  {
    if |keys| > 0 {
      var n := |keys| - 1;
      var init := keys[..n];
      assert forall i :: 0 <= i < n ==> init[i] == keys[i];
      assert forall i :: 0 <= i < n ==> names[..n][i] == names[i];
      AssembleContents(init, names[..n]);
      var m0 := Assemble(init, names[..n]).value;
      var m := Assemble(keys, names).value;
      assert m == m0[keys[n].value := names[n]];
      forall i | 0 <= i < |keys| && LastWithKey(keys, i)
        ensures m[keys[i].value] == names[i]
      {
        if i < n {
          assert LastWithKey(init, i);
        }
      }
      forall k | k in m
        ensures exists i :: 0 <= i < |keys| && keys[i] == Some(k)
      {
        if k != keys[n].value {
          var i :| 0 <= i < n && init[i] == Some(k);
        }
      }
    }
  }

  /** A converted label map has exactly the converted keys, each mapping to
      the class name of the last entry whose key converts to it: a present
      label file replaces the whole map. */
  lemma ConvertLabelsContents(entries: seq<(string, string)>)
    requires ConvertLabels(entries).Some?
    ensures var m := ConvertLabels(entries).value;
            var keys := ConvertKeys(entries);
      && (forall i :: 0 <= i < |entries| ==> keys[i].value in m)
      && (forall k :: k in m ==> exists i :: 0 <= i < |entries| && keys[i] == Some(k))
      && (forall i :: 0 <= i < |entries| && LastWithKey(keys, i) ==> m[keys[i].value] == entries[i].1)
  {
    AssembleContents(ConvertKeys(entries), Names(entries));
  }

  /** The label file `json.dump` writes for a map with these entries. */
  function EncodeLabels(pairs: seq<(int, string)>): (entries: seq<(string, string)>)
    ensures |entries| == |pairs|
    ensures forall i :: 0 <= i < |pairs| ==> entries[i] == (PyInt.Show(pairs[i].0), pairs[i].1)
  {
    if |pairs| == 0 then [] else EncodeLabels(pairs[..|pairs| - 1]) + [(PyInt.Show(pairs[|pairs| - 1].0), pairs[|pairs| - 1].1)]
  }

  /** The map whose entries these are, a later entry winning. */
  function PairsToMap(pairs: seq<(int, string)>): LabelMap {
    if |pairs| == 0 then map[]
    else PairsToMap(pairs[..|pairs| - 1])[pairs[|pairs| - 1].0 := pairs[|pairs| - 1].1]
  }

  /** Assembling keys that all converted gives the map of the pairs. */
  lemma {:induction false} AssembleConverted(pairs: seq<(int, string)>)
    ensures Assemble(seq(|pairs|, i requires 0 <= i < |pairs| => Some(pairs[i].0)),
                     seq(|pairs|, i requires 0 <= i < |pairs| => pairs[i].1)) == Some(PairsToMap(pairs))
  {
    if |pairs| > 0 {
      var n := |pairs| - 1;
      var keys := seq(|pairs|, i requires 0 <= i < |pairs| => Some(pairs[i].0));
      var names := seq(|pairs|, i requires 0 <= i < |pairs| => pairs[i].1);
      AssembleConverted(pairs[..n]);
      assert keys[..n] == seq(n, i requires 0 <= i < n => Some(pairs[..n][i].0));
      assert names[..n] == seq(n, i requires 0 <= i < n => pairs[..n][i].1);
    }
  }

  /** A label map written out as JSON reads back unchanged. */
  lemma ConvertEncodedLabels(pairs: seq<(int, string)>)
    ensures ConvertLabels(EncodeLabels(pairs)) == Some(PairsToMap(pairs))
  {
    var entries := EncodeLabels(pairs);
    forall i | 0 <= i < |pairs|
      ensures ConvertKeys(entries)[i] == Some(pairs[i].0)
    {
      PyInt.ParseShow(pairs[i].0);
    }
    assert ConvertKeys(entries) == seq(|pairs|, i requires 0 <= i < |pairs| => Some(pairs[i].0));
    assert Names(entries) == seq(|pairs|, i requires 0 <= i < |pairs| => pairs[i].1);
    AssembleConverted(pairs);
  }

  /** The class indices and names the training script saves. */
  const TrainedPairs: seq<(int, string)> := [(0, "Amused"), (1, "Neutral"), (2, "Stressed")]

  lemma TrainedPairsMap()
    ensures PairsToMap(TrainedPairs) == DefaultLabels
  {
    var pairs := TrainedPairs;
    var m1 := PairsToMap(pairs[..1]);
    var m2 := PairsToMap(pairs[..2]);
    var none: seq<(int, string)> := [];
    assert pairs[..1] == none + [(0, "Amused")];
    assert PairsToMap(none) == map[];
    assert m1 == PairsToMap(none)[0 := "Amused"];
    assert pairs[..2][..1] == pairs[..1];
    assert m2 == m1[1 := "Neutral"];
    assert PairsToMap(pairs) == m2[2 := "Stressed"];
  }

  /** The label file the training script writes converts to the default map. */
  lemma TrainedLabelsAreDefault()
    ensures ConvertLabels(EncodeLabels(TrainedPairs)) == Some(DefaultLabels)
  {
    ConvertEncodedLabels(TrainedPairs);
    TrainedPairsMap();
  }

  /** The feature-file step, reached once the model and labels are in. */
  function LoadFeatures<M>(p: Predictor<M>, features: FileOutcome<seq<string>>): (r: LoadResult<M>)
    ensures r.ok <==> !features.Raises?
    ensures r.state.model == p.model && r.state.labels == p.labels
    ensures r.state.features == if features.Parsed? then features.content else p.features
  {
    match features
    case Missing => LoadResult(true, p)
    case Raises => LoadResult(false, p)
    case Parsed(f) => LoadResult(true, p.(features := f))
  }

  /** `load_model()`. The model is stored as soon as it deserialises, before
      the label and feature files are read; a label or feature step that
      raises afterwards still reports failure. */
  function LoadModel<M>(p: Predictor<M>, files: ModelFiles<M>): (r: LoadResult<M>)
    // no usable model file: failure, nothing changes
    ensures !files.model.Parsed? ==> !r.ok && r.state == p
    // whatever the model file unpickles to is kept, whatever happens next
    ensures files.model.Parsed? ==> r.state.model == files.model.content
    // success exactly when no step raised
    ensures r.ok <==> files.model.Parsed? && !files.labels.Raises? && !files.features.Raises?
                      && (files.labels.Parsed? ==> ConvertLabels(files.labels.content).Some?)
    // a present, convertible label file replaces the whole map; otherwise it is kept
    ensures r.state.labels ==
      if files.model.Parsed? && files.labels.Parsed? && ConvertLabels(files.labels.content).Some?
      then ConvertLabels(files.labels.content).value else p.labels
    // a present feature file replaces the whole schema on a successful load; otherwise it is kept
    ensures r.state.features ==
      if r.ok && files.features.Parsed? then files.features.content else p.features
  {
    match files.model
    case Missing => LoadResult(false, p)
    case Raises => LoadResult(false, p)
    case Parsed(m) =>
      var loaded := p.(model := m);
      match files.labels
      case Missing => LoadFeatures(loaded, files.features)
      case Raises => LoadResult(false, loaded)
      case Parsed(entries) =>
        match ConvertLabels(entries)
        case None => LoadResult(false, loaded)
        case Some(labels) => LoadFeatures(loaded.(labels := labels), files.features)
  }

  /** `StressPredictor()`: the defaults, then one `load_model()`, whose
      verdict is dropped. */
  function New<M>(files: ModelFiles<M>): (p: Predictor<M>)
    ensures IsLoaded(p) <==> files.model.Parsed? && files.model.content.Some?
    ensures !files.model.Parsed? ==> p == Unloaded()
    ensures p.labels ==
      if files.model.Parsed? && files.labels.Parsed? && ConvertLabels(files.labels.content).Some?
      then ConvertLabels(files.labels.content).value else DefaultLabels
    ensures p.features ==
      if LoadModel(Unloaded(), files).ok && files.features.Parsed? then files.features.content else DefaultFeatures
  {
    LoadModel(Unloaded(), files).state
  }

  /** Without a model file the new predictor is unloaded and keeps both defaults. */
  lemma NewWithoutModelFile<M>(files: ModelFiles<M>)
    requires files.model.Missing?
    ensures !LoadModel(Unloaded(), files).ok
    ensures !IsLoaded(New(files))
    ensures New(files).labels == DefaultLabels && New(files).features == DefaultFeatures
  {
  }

  /** With a model file but neither side file, the load succeeds on the
      defaults; the predictor is loaded unless the file held `None`. */
  lemma NewWithModelOnly<M>(files: ModelFiles<M>)
    requires files.model.Parsed? && files.labels.Missing? && files.features.Missing?
    ensures LoadModel(Unloaded(), files).ok
    ensures IsLoaded(New(files)) <==> files.model.content.Some?
    ensures New(files).labels == DefaultLabels && New(files).features == DefaultFeatures
  {
  }

  /** After a successful load the predictor reports itself loaded exactly
      when the model file held an object rather than `None`. */
  lemma LoadSuccessIsLoaded<M>(p: Predictor<M>, files: ModelFiles<M>)
    ensures LoadModel(p, files).ok ==>
      (IsLoaded(LoadModel(p, files).state) <==> files.model.content.Some?)
  {
  }

  /** A load can report success yet leave the predictor unloaded: when the
      model file unpickles to `None`. */
  lemma LoadSuccessCanLeaveUnloaded<M>(p: Predictor<M>)
    ensures var r := LoadModel(p, ModelFiles(Parsed(None), Missing, Missing));
            r.ok && !IsLoaded(r.state)
  {
  }

  /** A load can report failure yet leave the model in place: when the
      label file raises after the model deserialised. */
  lemma LoadFailureCanLeaveLoaded<M>(m: M)
    ensures var r := LoadModel(Unloaded(), ModelFiles(Parsed(Some(m)), Raises, Missing));
            !r.ok && IsLoaded(r.state)
  {
  }

  /** The same with a label key that is not an integer: the comprehension
      raises, the call fails, the model stays and the default labels stay. */
  lemma LoadFailsOnNonIntegerLabelKey<M>(m: M)
    ensures var r := LoadModel(Unloaded(), ModelFiles(Parsed(Some(m)), Parsed([("zero", "Amused")]), Missing));
            !r.ok && IsLoaded(r.state) && r.state.labels == DefaultLabels
  {
    var w := "zero";
    assert w[0] == 'z' && PyInt.StripLeft(w) == w;
    PyInt.ParseRejectsWord(w);
  }

  /** The load the two-state design calls for: success means a model is
      held, and a failed load leaves the predictor exactly as it was, so a
      failure from a fresh predictor leaves it unloaded. */
  function LoadModelAtomic<M>(p: Predictor<M>, files: ModelFiles<M>): (r: LoadResult<M>)
    ensures r.ok <==> LoadModel(p, files).ok && IsLoaded(LoadModel(p, files).state)
    ensures r.ok ==> r.state == LoadModel(p, files).state
    ensures !r.ok ==> r.state == p
  {
    var attempt := LoadModel(p, files);
    if attempt.ok && IsLoaded(attempt.state) then attempt else LoadResult(false, p)
  }

  /** From a fresh predictor, the atomic load reports success exactly when
      it leaves the predictor loaded. */
  lemma AtomicLoadReportsLoaded<M>(files: ModelFiles<M>)
    ensures LoadModelAtomic(Unloaded(), files).ok <==> IsLoaded(LoadModelAtomic(Unloaded(), files).state)
  {
  }

  // -------------------------------------------------------------- predicting

  /** `[features_dict.get(feat, 0) for feat in features]`. */
  function Vectorize(values: map<string, real>, schema: seq<string>): (v: seq<real>)
    ensures |v| == |schema|
    ensures forall i :: 0 <= i < |schema| && schema[i] in values ==> v[i] == values[schema[i]]
    ensures forall i :: 0 <= i < |schema| && schema[i] !in values ==> v[i] == 0.0
  {
    if |schema| == 0 then []
    else [Get(values, schema[0], 0.0)] + Vectorize(values, schema[1..])
  }

  /** Only the schema's names matter: dictionaries that agree on them give
      the same vector, whatever other keys they carry. */
  lemma VectorizeIgnoresOtherKeys(v1: map<string, real>, v2: map<string, real>, schema: seq<string>)
    requires forall i :: 0 <= i < |schema| ==> (schema[i] in v1 <==> schema[i] in v2)
    requires forall i :: 0 <= i < |schema| && schema[i] in v1 ==> v1[schema[i]] == v2[schema[i]]
    ensures Vectorize(v1, schema) == Vectorize(v2, schema)
  {
  }

  /** The confidence comprehension `{labels[i]: p for i, p in enumerate(probs)}`:
      `None` when some position has no label, where the lookup raises. */
  function Confidence(labels: LabelMap, probs: seq<real>): (r: Option<ConfidenceMap>)
    ensures r.Some? <==> forall i :: 0 <= i < |probs| ==> i in labels
  {
    if |probs| == 0 then Some(map[])
    else
      var n := |probs| - 1;
      match Confidence(labels, probs[..n])
      case None => None
      case Some(m) => if n in labels then Some(m[labels[n] := probs[n]]) else None
  }

  /** No later position carries the same class name as position `i`. */
  ghost predicate LastWithName(labels: LabelMap, probs: seq<real>, i: int)
    requires 0 <= i < |probs|
    requires forall j :: 0 <= j < |probs| ==> j in labels
  {
    forall j :: i < j < |probs| ==> labels[j] != labels[i]
  }

  /** A confidence map holds exactly the names of positions 0..|probs|-1,
      each with the probability of the last position carrying that name. */
  lemma {:induction false} ConfidenceContents(labels: LabelMap, probs: seq<real>)
    requires Confidence(labels, probs).Some?
    ensures var c := Confidence(labels, probs).value;
      && (forall i :: 0 <= i < |probs| ==> labels[i] in c)
      && (forall name :: name in c ==> exists i :: 0 <= i < |probs| && labels[i] == name)
      && (forall i :: 0 <= i < |probs| && LastWithName(labels, probs, i) ==> c[labels[i]] == probs[i])
  {
    if |probs| > 0 {
      var n := |probs| - 1;
      var init := probs[..n];
      assert forall i :: 0 <= i < n ==> init[i] == probs[i];
      ConfidenceContents(labels, init);
      var c0 := Confidence(labels, init).value;
      var c := Confidence(labels, probs).value;
      assert c == c0[labels[n] := probs[n]];
      forall i | 0 <= i < |probs| && LastWithName(labels, probs, i)
        ensures c[labels[i]] == probs[i]
      {
        if i < n {
          assert LastWithName(labels, init, i);
        }
      }
    }
  }

  /** When distinct positions carry distinct names, every position's name
      maps to that position's own probability. */
  lemma ConfidencePairsPositions(labels: LabelMap, probs: seq<real>)
    requires forall i :: 0 <= i < |probs| ==> i in labels
    requires forall i, j :: 0 <= i < j < |probs| ==> labels[i] != labels[j]
    ensures Confidence(labels, probs).Some?
    ensures forall i :: 0 <= i < |probs| ==>
      labels[i] in Confidence(labels, probs).value && Confidence(labels, probs).value[labels[i]] == probs[i]
  {
    ConfidenceContents(labels, probs);
    forall i | 0 <= i < |probs|
      ensures LastWithName(labels, probs, i)
    {
    }
  }

  /** With the default labels and three probabilities, the confidence map
      has exactly the three class names, each with its own probability. */
  lemma DefaultConfidence(probs: seq<real>)
    requires |probs| == 3
    ensures Confidence(DefaultLabels, probs).Some?
    ensures Confidence(DefaultLabels, probs).value.Keys == {"Amused", "Neutral", "Stressed"}
    ensures Confidence(DefaultLabels, probs).value["Amused"] == probs[0]
    ensures Confidence(DefaultLabels, probs).value["Neutral"] == probs[1]
    ensures Confidence(DefaultLabels, probs).value["Stressed"] == probs[2]
  {
    ConfidencePairsPositions(DefaultLabels, probs);
    ConfidenceContents(DefaultLabels, probs);
    var c := Confidence(DefaultLabels, probs).value;
    assert DefaultLabels[0] == "Amused" && DefaultLabels[1] == "Neutral" && DefaultLabels[2] == "Stressed";
    forall name | name in c
      ensures name in {"Amused", "Neutral", "Stressed"}
    {
      var i :| 0 <= i < 3 && DefaultLabels[i] == name;
    }
  }

  /** `labels.get(int(prediction), "Unknown")`. */
  function LabelFor(labels: LabelMap, prediction: int): (name: string)
    ensures prediction in labels ==> name == labels[prediction]
    ensures prediction !in labels ==> name == Unknown
  {
    Get(labels, prediction, Unknown)
  }

  /** `predict(features_dict)` against the classifier `classify`. */
  function Predict<M>(p: Predictor<M>, classify: (M, seq<real>) -> Inference, values: map<string, real>): (r: Prediction)
    ensures !IsLoaded(p) ==> r == Prediction(NotLoaded, None)
    ensures IsLoaded(p) && classify(p.model.value, Vectorize(values, p.features)).Raised? ==>
      r == Prediction(PredictionError, None)
    ensures IsLoaded(p) && classify(p.model.value, Vectorize(values, p.features)).Inference? ==>
      var answer := classify(p.model.value, Vectorize(values, p.features));
      r == if Confidence(p.labels, answer.probabilities).None? then Prediction(PredictionError, None)
           else Prediction(LabelFor(p.labels, answer.prediction), Confidence(p.labels, answer.probabilities))
    // every label is a class name or 'Unknown', unless it is a sentinel without confidences
    ensures r.confidence.Some? ==> r.name in p.labels.Values || r.name == Unknown
    ensures r.confidence.None? ==> r.name in {NotLoaded, PredictionError}
  {
    match p.model
    case None => Prediction(NotLoaded, None)
    case Some(m) =>
      match classify(m, Vectorize(values, p.features))
      case Raised => Prediction(PredictionError, None)
      case Inference(k, probs) =>
        match Confidence(p.labels, probs)
        case None => Prediction(PredictionError, None)
        case Some(c) => Prediction(LabelFor(p.labels, k), Some(c))
  }

  /** Without a model the classifier is never consulted: any two
      classifiers give the same sentinel. */
  lemma PredictUnloadedIgnoresClassifier<M>(p: Predictor<M>, c1: (M, seq<real>) -> Inference,
                                             c2: (M, seq<real>) -> Inference, values: map<string, real>)
    requires !IsLoaded(p)
    ensures Predict(p, c1, values) == Predict(p, c2, values) == Prediction(NotLoaded, None)
  {
  }

  /** `get_required_features()`: the schema, as a value of its own. */
  function RequiredFeatures<M>(p: Predictor<M>): seq<string> {
    p.features
  }

  /** The classifier sees the submitted value of every required feature, in
      order, when the dictionary supplies them all. */
  lemma RequiredFeaturesFillVector<M>(p: Predictor<M>, values: map<string, real>)
    requires forall i :: 0 <= i < |RequiredFeatures(p)| ==> RequiredFeatures(p)[i] in values
    ensures |Vectorize(values, p.features)| == |RequiredFeatures(p)|
    ensures forall i :: 0 <= i < |RequiredFeatures(p)| ==>
      Vectorize(values, p.features)[i] == values[RequiredFeatures(p)[i]]
  {
  }

  /** Keys outside the required features never change a prediction. */
  lemma PredictDependsOnlyOnRequired<M>(p: Predictor<M>, classify: (M, seq<real>) -> Inference,
                                         v1: map<string, real>, v2: map<string, real>)
    requires forall n :: n in RequiredFeatures(p) ==> (n in v1 <==> n in v2)
    requires forall n :: n in RequiredFeatures(p) && n in v1 ==> v1[n] == v2[n]
    ensures Predict(p, classify, v1) == Predict(p, classify, v2)
  {
    VectorizeIgnoresOtherKeys(v1, v2, p.features);
  }

  // --------------------------------------------------------------- singleton

  /** The module-level slot and the predictor `get_predictor()` hands out. */
  datatype Handle<M> = Handle(slot: Option<Predictor<M>>, predictor: Predictor<M>)

  /** `get_predictor()`: build a predictor only when the slot is empty. */
  function GetPredictor<M>(slot: Option<Predictor<M>>, files: ModelFiles<M>): (h: Handle<M>)
    ensures h.slot == Some(h.predictor)
    ensures slot.Some? ==> h.predictor == slot.value
    ensures slot.None? ==> h.predictor == New(files)
  {
    match slot
    case Some(p) => Handle(slot, p)
    case None => var p := New(files); Handle(Some(p), p)
  }

  /** After the first call every later call returns the same predictor,
      whatever the files now hold. */
  lemma GetPredictorOnce<M>(slot: Option<Predictor<M>>, f1: ModelFiles<M>, f2: ModelFiles<M>)
    ensures var h := GetPredictor(slot, f1);
            GetPredictor(h.slot, f2) == h
  {
  }
}

=== FILE: pyint.dfy ===
/** Python's `int(s)` on a string and `str(n)` on an integer, for the
    decimal case the label file uses: the label file stores its integer
    class indices as JSON object keys, which are strings, and the loader
    converts each key back with `int`. */
module PyInt {
  import opened Optional

  /** The whitespace `int` strips around its argument (ASCII part). */
  predicate IsSpace(c: char) {
    c == ' ' || c == '\t' || c == '\n' || c == '\r' || c == '\U{000B}' || c == '\U{000C}'
  }

  predicate IsDigit(c: char) {
    '0' <= c <= '9'
  }

  function DigitValue(c: char): nat
    requires IsDigit(c)
  {
    (c as int) - ('0' as int)
  }

  function DigitChar(d: nat): (c: char)
    requires d < 10
    ensures IsDigit(c) && DigitValue(c) == d
  {
    (('0' as int) + d) as char
  }

  /** `s` without leading whitespace. */
  function StripLeft(s: string): (r: string)
    ensures |r| <= |s| && r == s[|s| - |r|..]
    ensures |r| > 0 ==> !IsSpace(r[0])
    ensures forall i :: 0 <= i < |s| - |r| ==> IsSpace(s[i])
  {
    if |s| > 0 && IsSpace(s[0]) then StripLeft(s[1..]) else s
  }

  /** `s` without trailing whitespace. */
  function StripRight(s: string): (r: string)
    ensures |r| <= |s| && r == s[..|r|]
    ensures |r| > 0 ==> !IsSpace(r[|r| - 1])
    ensures forall i :: |r| <= i < |s| ==> IsSpace(s[i])
  {
    if |s| > 0 && IsSpace(s[|s| - 1]) then StripRight(s[..|s| - 1]) else s
  }

  function Strip(s: string): string {
    StripRight(StripLeft(s))
  }

  /** A digit run as `int` accepts it in base 10: digits, where a single
      underscore may separate two digits. */
  predicate WellFormedDigits(t: string) {
    && |t| > 0
    && IsDigit(t[0])
    && IsDigit(t[|t| - 1])
    && (forall i :: 0 <= i < |t| ==> IsDigit(t[i]) || t[i] == '_')
    && (forall i :: 0 <= i < |t| - 1 && t[i] == '_' ==> t[i + 1] != '_')
  }

  /** The number a digit run denotes; underscores carry no value. */
  function DigitsValue(t: string): nat
    requires forall i :: 0 <= i < |t| ==> IsDigit(t[i]) || t[i] == '_'
  {
    if |t| == 0 then 0
    else if t[|t| - 1] == '_' then DigitsValue(t[..|t| - 1])
    else 10 * DigitsValue(t[..|t| - 1]) + DigitValue(t[|t| - 1])
  }

  /** `int(s)` for base 10: `None` where Python raises `ValueError`. */
  function Parse(s: string): (r: Option<int>)
    ensures r.Some? ==> |Strip(s)| > 0
    ensures |Strip(s)| > 0 && WellFormedDigits(Strip(s)) ==> r == Some(DigitsValue(Strip(s)))
  {
    ParseStripped(Strip(s))
  }

  /** The sign and digit run that remain once the whitespace is gone. */
  function ParseStripped(t: string): (r: Option<int>)
    ensures |t| > 0 && WellFormedDigits(t) ==> r == Some(DigitsValue(t))
  {
    if |t| == 0 then None
    else if t[0] == '-' || t[0] == '+' then
      var body := t[1..];
      if WellFormedDigits(body) then
        var v: int := if t[0] == '-' then 0 - DigitsValue(body) else DigitsValue(body);
        Some(v)
      else None
    else if WellFormedDigits(t) then Some(DigitsValue(t))
    else None
  }

  /** `str(n)` for a non-negative integer: its decimal digits, no leading zero. */
  function ShowNat(n: nat): (s: string)
    ensures |s| > 0
    ensures forall i :: 0 <= i < |s| ==> IsDigit(s[i])
    ensures |s| > 1 ==> s[0] != '0'
  {
    if n < 10 then [DigitChar(n)] else ShowNat(n / 10) + [DigitChar(n % 10)]
  }

  /** `str(n)`: a minus sign before the digits of a negative number. */
  function Show(n: int): string {
    if n < 0 then "-" + ShowNat(-n) else ShowNat(n)
  }

  lemma {:induction false} ShowNatValue(n: nat)
    ensures WellFormedDigits(ShowNat(n))
    ensures DigitsValue(ShowNat(n)) == n
  {
    var s := ShowNat(n);
    if n >= 10 {
      ShowNatValue(n / 10);
      assert s[..|s| - 1] == ShowNat(n / 10);
    }
  }

  lemma StripUnspaced(s: string)
    requires |s| > 0 && !IsSpace(s[0]) && !IsSpace(s[|s| - 1])
    ensures Strip(s) == s
  {
  }

  /** The label file written by the training script reads back: `int(str(n)) == n`. */
  lemma ParseShow(n: int)
    ensures Parse(Show(n)) == Some(n)
  {
    var s := Show(n);
    ShowNatValue(if n < 0 then -n else n);
    StripUnspaced(s);
    if n < 0 {
      assert s[1..] == ShowNat(-n);
    }
  }

  predicate AllSpace(s: string) {
    forall i :: 0 <= i < |s| ==> IsSpace(s[i])
  }

  lemma {:induction false} StripLeftSpacePrefix(pre: string, x: string)
    requires AllSpace(pre)
    ensures StripLeft(pre + x) == StripLeft(x)
  {
    if |pre| > 0 {
      assert (pre + x)[1..] == pre[1..] + x;
      StripLeftSpacePrefix(pre[1..], x);
    } else {
      assert pre + x == x;
    }
  }

  lemma {:induction false} StripRightSpaceSuffix(x: string, post: string)
    requires AllSpace(post)
    ensures StripRight(x + post) == StripRight(x)
  {
    if |post| > 0 {
      var n := |x + post|;
      assert (x + post)[..n - 1] == x + post[..|post| - 1];
      StripRightSpaceSuffix(x, post[..|post| - 1]);
    } else {
      assert x + post == x;
    }
  }

  lemma {:induction false} StripLeftAppend(x: string, y: string)
    ensures StripLeft(x) != [] ==> StripLeft(x + y) == StripLeft(x) + y
    ensures StripLeft(x) == [] ==> StripLeft(x + y) == StripLeft(y)
  {
    if |x| > 0 && IsSpace(x[0]) {
      assert (x + y)[1..] == x[1..] + y;
      StripLeftAppend(x[1..], y);
    } else if |x| == 0 {
      assert x + y == y;
    }
  }

  /** Keys that differ only in surrounding whitespace convert to the same integer. */
  lemma ParseIgnoresSurroundingSpace(s: string, pre: string, post: string)
    requires AllSpace(pre) && AllSpace(post)
    ensures Parse(pre + s + post) == Parse(s)
  {
    StripSurrounding(s, pre, post);
  }

  lemma StripSurrounding(s: string, pre: string, post: string)
    requires AllSpace(pre) && AllSpace(post)
    ensures Strip(pre + s + post) == Strip(s)
  {
    assert pre + s + post == pre + (s + post);
    StripLeftSpacePrefix(pre, s + post);
    StripLeftAppend(s, post);
    if StripLeft(s) != [] {
      StripRightSpaceSuffix(StripLeft(s), post);
    } else {
      assert StripLeft(post) == [];
    }
  }

  /** A key whose first non-whitespace character is neither a digit nor a
      sign is not an integer: a word in either case, an underscore or a
      stray symbol, with or without whitespace around it. */
  lemma ParseRejectsWord(w: string)
    requires |StripLeft(w)| > 0
    requires !IsDigit(StripLeft(w)[0]) && StripLeft(w)[0] != '-' && StripLeft(w)[0] != '+'
    ensures Parse(w).None?
  {
    var t := StripLeft(w);
    assert StripRight(t)[0] == t[0];
  }
}

=== FILE: query.dfy ===
/** The three queryset steps the views chain together, over plain
    sequences: `filter(...)`, `order_by('-created_at')` and the slice `[:n]`,
    plus the reversal `[::-1]` the dashboard applies afterwards. Records are
    ordered by an integer key standing for their creation instant. */
module Query {

  /** `filter(keep)`: the records that satisfy `keep`, in their original order. */
  function Filter<T>(s: seq<T>, keep: T -> bool): (r: seq<T>)
    ensures |r| <= |s|
    ensures forall i :: 0 <= i < |r| ==> r[i] in s && keep(r[i])
    ensures forall i :: 0 <= i < |s| && keep(s[i]) ==> s[i] in r
    ensures multiset(r) <= multiset(s)
    ensures forall i :: 0 <= i < |s| && keep(s[i]) ==> multiset(r)[s[i]] == multiset(s)[s[i]]
  {
    if |s| == 0 then []
    else
      assert s == [s[0]] + s[1..];
      if keep(s[0]) then [s[0]] + Filter(s[1..], keep)
      else Filter(s[1..], keep)
  }

  /** Filtering runs left to right: the kept records of a concatenation are
      the kept records of each part, in the parts' order. */
  lemma {:induction false} FilterConcat<T>(a: seq<T>, b: seq<T>, keep: T -> bool)
    ensures Filter(a + b, keep) == Filter(a, keep) + Filter(b, keep)
  {
    if |a| == 0 {
      assert a + b == b;
    } else {
      assert (a + b)[1..] == a[1..] + b;
      FilterConcat(a[1..], b, keep);
    }
  }

  /** Largest key first. */
  ghost predicate NewestFirst<T>(s: seq<T>, key: T -> int) {
    forall i, j :: 0 <= i < j < |s| ==> key(s[i]) >= key(s[j])
  }

  /** Places `x` before the first record with a smaller key. */
  function Insert<T>(x: T, s: seq<T>, key: T -> int): (r: seq<T>)
    requires NewestFirst(s, key)
    ensures NewestFirst(r, key)
    ensures multiset(r) == multiset(s) + multiset{x}
    ensures |r| == |s| + 1
    ensures r[0] == x || (|s| > 0 && r[0] == s[0])
  {
    if |s| == 0 || key(x) >= key(s[0]) then [x] + s
    else
      var rest := Insert(x, s[1..], key);
      assert s == [s[0]] + s[1..];
      [s[0]] + rest
  }

  /** `order_by('-created_at')`: the same records, newest first. The
      database does not promise an order among equal keys; this one keeps
      the input order there, which is one of the orders it may pick. */
  function SortNewestFirst<T>(s: seq<T>, key: T -> int): (r: seq<T>)
    ensures NewestFirst(r, key)
    ensures multiset(r) == multiset(s)
    ensures |r| == |s|
  {
    if |s| == 0 then []
    else
      assert s == [s[0]] + s[1..];
      Insert(s[0], SortNewestFirst(s[1..], key), key)
  }

  /** A sequence whose multiset lies within another's has only its members. */
  lemma WithinMembers<T>(a: seq<T>, b: seq<T>)
    requires multiset(a) <= multiset(b)
    ensures forall i :: 0 <= i < |a| ==> a[i] in b
  {
    forall i | 0 <= i < |a|
      ensures a[i] in b
    {
      assert a[i] in multiset(a);
    }
  }

  /** The slice `[:n]`. */
  function Take<T>(s: seq<T>, n: nat): (r: seq<T>)
    ensures |r| == if |s| <= n then |s| else n
    ensures r == s[..|r|]
  {
    if |s| <= n then s else s[..n]
  }

  /** The slice `[::-1]`. */
  function Reverse<T>(s: seq<T>): (r: seq<T>)
    ensures |r| == |s|
    ensures forall k :: 0 <= k < |s| ==> r[k] == s[|s| - 1 - k]
  {
    if |s| == 0 then [] else Reverse(s[1..]) + [s[0]]
  }

  /** `filter(keep).order_by('-created_at')[:limit]`. */
  function Recent<T>(s: seq<T>, keep: T -> bool, key: T -> int, limit: nat): (r: seq<T>)
    ensures |r| <= limit
    ensures NewestFirst(r, key)
    ensures forall i :: 0 <= i < |r| ==> r[i] in s && keep(r[i])
    ensures multiset(r) <= multiset(Filter(s, keep)) <= multiset(s)
    ensures |r| == if |Filter(s, keep)| <= limit then |Filter(s, keep)| else limit
  {
    var filtered := Filter(s, keep);
    var r := Take(SortNewestFirst(filtered, key), limit);
    TakeWithin(SortNewestFirst(filtered, key), limit);
    WithinMembers(r, filtered);
    r
  }

  /** A prefix holds no record more often than the whole sequence does. */
  lemma TakeWithin<T>(s: seq<T>, n: nat)
    ensures multiset(Take(s, n)) <= multiset(s)
  {
    var r := Take(s, n);
    assert s == r + s[|r|..];
  }

  /** Nothing that passes the filter is dropped unless `limit` records at
      least as new are shown instead. */
  lemma RecentKeepsNewest<T>(s: seq<T>, keep: T -> bool, key: T -> int, limit: nat, x: T)
    requires x in s && keep(x)
    requires x !in Recent(s, keep, key, limit)
    ensures |Recent(s, keep, key, limit)| == limit
    ensures forall y :: y in Recent(s, keep, key, limit) ==> key(y) >= key(x)
  {
    var filtered := Filter(s, keep);
    var sorted := SortNewestFirst(filtered, key);
    var r := Recent(s, keep, key, limit);
    var k :| 0 <= k < |s| && s[k] == x;
    assert x in filtered;
    assert x in multiset(sorted);
    var j :| 0 <= j < |sorted| && sorted[j] == x;
    assert r == Take(sorted, limit);
    forall y | y in r
      ensures key(y) >= key(x)
    {
      var i :| 0 <= i < |r| && r[i] == y;
      assert sorted[i] == y;
    }
  }

  /** With no more than `limit` matching records, all of them are shown. */
  lemma RecentShowsAllWhenFew<T>(s: seq<T>, keep: T -> bool, key: T -> int, limit: nat)
    requires |Filter(s, keep)| <= limit
    ensures multiset(Recent(s, keep, key, limit)) == multiset(Filter(s, keep))
  {
  }
}

=== FILE: records.dfy ===
/** The stored records of the stress app: questionnaire responses,
    physiological readings with their classifier verdict, tasks and journal
    entries, with the defaults a new record gets and the text each shows
    for itself in listings. */
module Records {
  import opened Optional

  /** An account; records refer to it by `id` and show its `username`. */
  datatype User = User(id: int, username: string)

  /** A creation time: `instant` orders records, `text` is its full
      rendering and `date` the rendering of its calendar date. The clock and
      the formatting are outside the model. */
  datatype Timestamp = Timestamp(instant: int, text: string, date: string)

  /** Python's `level or 'Pending'` on a nullable text column: both `None`
      and the empty string are false and give way to the fallback. */
  function LevelOrPending(level: Option<string>): (r: string)
    ensures r != ""
    ensures level.Some? && level.value != "" ==> r == level.value
    ensures level.None? || level == Some("") ==> r == "Pending"
  {
    if level.Some? && level.value != "" then level.value else "Pending"
  }

  // ---------------------------------------------------------------- Response

  /** A questionnaire submission: ten integer answers and the level the
      scoring rule assigned (nullable until then). */
  datatype Response = Response(
    user: User,
    q1: int, q2: int, q3: int, q4: int, q5: int,
    q6: int, q7: int, q8: int, q9: int, q10: int,
    predictedLevel: Option<string>,
    createdAt: Timestamp)

  /** The answers in question order. */
  function Answers(r: Response): (a: seq<int>)
    ensures |a| == 10
    ensures a[0] == r.q1 && a[9] == r.q10
  {
    [r.q1, r.q2, r.q3, r.q4, r.q5, r.q6, r.q7, r.q8, r.q9, r.q10]
  }

  /** A response as the form saves it, before any level is assigned. */
  function NewResponse(user: User, answers: seq<int>, at: Timestamp): (r: Response)
    requires |answers| == 10
    ensures Answers(r) == answers
    ensures r.user == user && r.createdAt == at
    ensures r.predictedLevel.None?
  {
    Response(user, answers[0], answers[1], answers[2], answers[3], answers[4],
             answers[5], answers[6], answers[7], answers[8], answers[9], None, at)
  }

  /** "username - level", with 'Pending' for a missing or empty level. */
  function ResponseDisplay(r: Response): (s: string)
    ensures |s| == |r.user.username| + 3 + |LevelOrPending(r.predictedLevel)|
    ensures s[..|r.user.username|] == r.user.username
    ensures s[|r.user.username|..|r.user.username| + 3] == " - "
    ensures s[|r.user.username| + 3..] == LevelOrPending(r.predictedLevel)
  {
    r.user.username + " - " + LevelOrPending(r.predictedLevel)
  }

  /** A response shows as pending exactly when it has no level to show. */
  lemma ResponseDisplayPending(r: Response)
    ensures ResponseDisplay(r) == r.user.username + " - Pending"
        <==> r.predictedLevel in {None, Some(""), Some("Pending")}
  {
    var u := r.user.username;
    if ResponseDisplay(r) == u + " - Pending" {
      assert LevelOrPending(r.predictedLevel) == ResponseDisplay(r)[|u| + 3..];
      assert (u + " - Pending")[|u| + 3..] == "Pending";
    }
  }

  // ------------------------------------------------------- PhysiologicalData

  /** The fifteen measurements of one sensor submission: twelve float
      readings and three integer demographics. */
  datatype Readings = Readings(
    bvpMean: real, bvpStd: real, bvpPeakFreq: real,
    edaPhasicMean: real, edaPhasicMin: real, edaSmnaMin: real, edaTonicMean: real,
    respMean: real, respStd: real,
    tempMean: real, tempStd: real, tempSlope: real,
    age: int, height: int, weight: int)

  /** One sensor submission with its nullable verdict and per-class confidences. */
  datatype PhysiologicalData = PhysiologicalData(
    user: User,
    readings: Readings,
    predictedLevel: Option<string>,
    confidenceAmused: Option<real>,
    confidenceNeutral: Option<real>,
    confidenceStressed: Option<real>,
    createdAt: Timestamp)

  /** The column names of the fifteen measurements, in declaration order. */
  const ReadingColumns: seq<string> := [
    "BVP_mean", "BVP_std", "BVP_peak_freq",
    "EDA_phasic_mean", "EDA_phasic_min", "EDA_smna_min", "EDA_tonic_mean",
    "Resp_mean", "Resp_std",
    "TEMP_mean", "TEMP_std", "TEMP_slope",
    "age", "height", "weight"]

  /** The measurement stored under a column name; `None` for any other name.
      Integer columns are read as numbers like the float ones. */
  function Reading(m: Readings, column: string): (v: Option<real>)
    ensures v.Some? <==> column in ReadingColumns
  {
    match column
    case "BVP_mean" => Some(m.bvpMean)
    case "BVP_std" => Some(m.bvpStd)
    case "BVP_peak_freq" => Some(m.bvpPeakFreq)
    case "EDA_phasic_mean" => Some(m.edaPhasicMean)
    case "EDA_phasic_min" => Some(m.edaPhasicMin)
    case "EDA_smna_min" => Some(m.edaSmnaMin)
    case "EDA_tonic_mean" => Some(m.edaTonicMean)
    case "Resp_mean" => Some(m.respMean)
    case "Resp_std" => Some(m.respStd)
    case "TEMP_mean" => Some(m.tempMean)
    case "TEMP_std" => Some(m.tempStd)
    case "TEMP_slope" => Some(m.tempSlope)
    case "age" => Some(m.age as real)
    case "height" => Some(m.height as real)
    case "weight" => Some(m.weight as real)
    case _ => None
  }

  /** A submission as the form saves it: measurements filled in, and the
      verdict and the three confidences null. */
  function NewPhysiologicalData(user: User, readings: Readings, at: Timestamp): (d: PhysiologicalData)
    ensures d.user == user && d.readings == readings && d.createdAt == at
    ensures d.predictedLevel.None?
    ensures d.confidenceAmused.None? && d.confidenceNeutral.None? && d.confidenceStressed.None?
  {
    PhysiologicalData(user, readings, None, None, None, None, at)
  }

  /** "username - level at time", with the same 'Pending' fallback. */
  function PhysiologicalDisplay(d: PhysiologicalData): (s: string)
    ensures |s| == |d.user.username| + 3 + |LevelOrPending(d.predictedLevel)| + 4 + |d.createdAt.text|
    ensures s[..|d.user.username|] == d.user.username
    ensures s[|d.user.username|..|d.user.username| + 3] == " - "
    ensures s[|s| - |d.createdAt.text| - 4..|s| - |d.createdAt.text|] == " at "
    ensures s[|s| - |d.createdAt.text|..] == d.createdAt.text
    ensures s[|d.user.username| + 3..|s| - |d.createdAt.text| - 4] == LevelOrPending(d.predictedLevel)
  {
    d.user.username + " - " + LevelOrPending(d.predictedLevel) + " at " + d.createdAt.text
  }

  /** A freshly saved submission shows as pending at its creation time. */
  lemma NewPhysiologicalDisplayPending(user: User, readings: Readings, at: Timestamp)
    ensures PhysiologicalDisplay(NewPhysiologicalData(user, readings, at))
         == user.username + " - Pending at " + at.text
  {
  }

  // -------------------------------------------------------------------- Task

  datatype Task = Task(user: User, title: string, dueDate: Option<string>, completed: bool, createdAt: Timestamp)

  /** A task as the form saves it: not completed. */
  function NewTask(user: User, title: string, dueDate: Option<string>, at: Timestamp): (t: Task)
    ensures !t.completed
    ensures t.user == user && t.title == title && t.dueDate == dueDate && t.createdAt == at
  {
    Task(user, title, dueDate, false, at)
  }

  /** "title - Done" or "title - Pending". */
  function TaskDisplay(t: Task): (s: string)
    ensures |s| > |t.title| + 3 && s[..|t.title|] == t.title
    ensures s[|t.title|..|t.title| + 3] == " - "
  {
    t.title + " - " + (if t.completed then "Done" else "Pending")
  }

  /** A task shows as done exactly when it is completed. */
  lemma TaskDisplayDone(t: Task)
    ensures TaskDisplay(t) == t.title + " - Done" <==> t.completed
    ensures TaskDisplay(t) == t.title + " - Pending" <==> !t.completed
  {
    var n := |t.title|;
    if !t.completed {
      assert |TaskDisplay(t)| != |t.title + " - Done"|;
    } else {
      assert |TaskDisplay(t)| != |t.title + " - Pending"|;
    }
  }

  // ------------------------------------------------------------ JournalEntry

  /** A journal entry; `user` may be null, and `anonymous` hides it anyway. */
  datatype JournalEntry = JournalEntry(user: Option<User>, anonymous: bool, content: string, createdAt: Timestamp)

  /** An entry with every defaulted field at its default. */
  function NewJournalEntry(content: string, at: Timestamp): (e: JournalEntry)
    ensures !e.anonymous && e.user.None?
    ensures e.content == content && e.createdAt == at
  {
    JournalEntry(None, false, content, at)
  }

  /** Who an entry shows as written by. */
  function JournalAuthor(e: JournalEntry): (who: string)
    ensures e.anonymous || e.user.None? ==> who == "Anonymous"
    ensures !e.anonymous && e.user.Some? ==> who == e.user.value.username
  {
    if e.anonymous then "Anonymous"
    else if e.user.Some? then e.user.value.username
    else "Anonymous"
  }

  /** "author - date". */
  function JournalDisplay(e: JournalEntry): (s: string)
    ensures |s| == |JournalAuthor(e)| + 3 + |e.createdAt.date|
    ensures s[..|JournalAuthor(e)|] == JournalAuthor(e)
    ensures s[|JournalAuthor(e)|..|JournalAuthor(e)| + 3] == " - "
    ensures s[|s| - |e.createdAt.date|..] == e.createdAt.date
  {
    JournalAuthor(e) + " - " + e.createdAt.date
  }

  /** The author shows as 'Anonymous' when the flag is set, when no user is
      attached, or when the user is literally called that, and only then. */
  lemma JournalAuthorAnonymous(e: JournalEntry)
    ensures JournalAuthor(e) == "Anonymous"
        <==> e.anonymous || e.user.None? || e.user.value.username == "Anonymous"
  {
  }
}

=== FILE: views.dfy ===
/** The decision rules inside the web views: questionnaire scoring, the
    dashboard chart, the feature dictionary the sensor form sends to the
    predictor and how its answer is stored, the task completion toggle, and
    journal ownership and visibility. Requests, templates, messages and the
    database are outside the model; a table is a sequence or a map. */
module Views {
  import opened Optional
  import opened Records
  import P = Predictor
  import Query

  // ----------------------------------------------------------- questionnaire

  /** Python's `sum` of a list of integers. */
  function Sum(xs: seq<int>): int {
    if |xs| == 0 then 0 else xs[0] + Sum(xs[1..])
  }

  lemma {:induction false} SumConcat(a: seq<int>, b: seq<int>)
    ensures Sum(a + b) == Sum(a) + Sum(b)
  {
    if |a| > 0 {
      assert (a + b)[1..] == a[1..] + b;
      SumConcat(a[1..], b);
    } else {
      assert a + b == b;
    }
  }

  /** Summing the same answers in another order gives the same total. */
  lemma {:induction false} SumPermutation(a: seq<int>, b: seq<int>)
    requires multiset(a) == multiset(b)
    ensures Sum(a) == Sum(b)
    decreases |a|
  {
    if |a| > 0 {
      assert a[0] in multiset(b);
      var j :| 0 <= j < |b| && b[j] == a[0];
      var rest := b[..j] + b[j + 1..];
      assert b == b[..j] + [b[j]] + b[j + 1..];
      SumConcat(b[..j] + [b[j]], b[j + 1..]);
      SumConcat(b[..j], [b[j]]);
      SumConcat(b[..j], b[j + 1..]);
      assert a == [a[0]] + a[1..];
      assert multiset(a) == multiset{a[0]} + multiset(a[1..]);
      assert multiset(b) == multiset(b[..j]) + multiset{b[j]} + multiset(b[j + 1..]);
      assert multiset(rest) == multiset(b[..j]) + multiset(b[j + 1..]);
      assert multiset(a[1..]) == multiset(a) - multiset{a[0]};
      assert multiset(rest) == multiset(b) - multiset{b[j]};
      SumPermutation(a[1..], rest);
    } else {
      assert |b| == |multiset(b)| == 0;
    }
  }

  /** Raising some answers never lowers the total. */
  lemma {:induction false} SumMonotone(a: seq<int>, b: seq<int>)
    requires |a| == |b|
    requires forall i :: 0 <= i < |a| ==> a[i] <= b[i]
    ensures Sum(a) <= Sum(b)
  {
    if |a| > 0 {
      SumMonotone(a[1..], b[1..]);
    }
  }

  /** The questionnaire band of a total: at most 35 is low, at most 65 is
      medium, anything above is high. No bound on the answers is assumed. */
  function StressBand(total: int): (level: string)
    ensures level == "Low Stress" <==> total <= 35
    ensures level == "Medium Stress" <==> 35 < total <= 65
    ensures level == "High Stress" <==> 65 < total
  {
    if total <= 35 then "Low Stress"
    else if total <= 65 then "Medium Stress"
    else "High Stress"
  }

  /** `question_view`: the level is the band of the answers' total; nothing
      else about the response changes. */
  function Score(r: Response): (scored: Response)
    ensures scored.predictedLevel.Some?
    ensures scored.predictedLevel.value in {"Low Stress", "Medium Stress", "High Stress"}
    ensures var total := r.q1 + r.q2 + r.q3 + r.q4 + r.q5 + r.q6 + r.q7 + r.q8 + r.q9 + r.q10;
      && (scored.predictedLevel == Some("Low Stress") <==> total <= 35)
      && (scored.predictedLevel == Some("Medium Stress") <==> 35 < total <= 65)
      && (scored.predictedLevel == Some("High Stress") <==> 65 < total)
    ensures scored.(predictedLevel := r.predictedLevel) == r
  {
    AnswersTotal(r);
    r.(predictedLevel := Some(StressBand(Sum(Answers(r)))))
  }

  /** The total of the answers is the plain sum of the ten columns. */
  lemma AnswersTotal(r: Response)
    ensures Sum(Answers(r)) == r.q1 + r.q2 + r.q3 + r.q4 + r.q5 + r.q6 + r.q7 + r.q8 + r.q9 + r.q10
  {
    var a := Answers(r);
    assert a[0..] == a;
    SumFrom(a, 0); SumFrom(a, 1); SumFrom(a, 2); SumFrom(a, 3); SumFrom(a, 4);
    SumFrom(a, 5); SumFrom(a, 6); SumFrom(a, 7); SumFrom(a, 8); SumFrom(a, 9);
    assert a[10..] == [];
  }

  lemma SumFrom(a: seq<int>, k: nat)
    requires k < |a|
    ensures Sum(a[k..]) == a[k] + Sum(a[k + 1..])
  {
    assert a[k..][1..] == a[k + 1..];
  }

  /** Responses with the same total get the same level. */
  lemma ScoreDependsOnlyOnTotal(r1: Response, r2: Response)
    requires r1.q1 + r1.q2 + r1.q3 + r1.q4 + r1.q5 + r1.q6 + r1.q7 + r1.q8 + r1.q9 + r1.q10
          == r2.q1 + r2.q2 + r2.q3 + r2.q4 + r2.q5 + r2.q6 + r2.q7 + r2.q8 + r2.q9 + r2.q10
    ensures Score(r1).predictedLevel == Score(r2).predictedLevel
  {
    AnswersTotal(r1);
    AnswersTotal(r2);
  }

  /** Two responses with the same answers in any order get the same level. */
  lemma ScoreIgnoresAnswerOrder(r1: Response, r2: Response)
    requires multiset(Answers(r1)) == multiset(Answers(r2))
    ensures Score(r1).predictedLevel == Score(r2).predictedLevel
  {
    SumPermutation(Answers(r1), Answers(r2));
  }

  // ------------------------------------------------------------------- chart

  /** The chart number of a level: 1 low, 2 medium, 3 for anything else,
      including a missing level. */
  function ChartValue(level: Option<string>): (v: int)
    ensures 1 <= v <= 3
    ensures v == 1 <==> level == Some("Low Stress")
    ensures v == 2 <==> level == Some("Medium Stress")
  {
    if level == Some("Low Stress") then 1
    else if level == Some("Medium Stress") then 2
    else 3
  }

  /** The charted level never decreases as the total grows. */
  lemma ChartValueMonotone(t1: int, t2: int)
    requires t1 <= t2
    ensures ChartValue(Some(StressBand(t1))) <= ChartValue(Some(StressBand(t2)))
  {
  }

  /** Raising answers never lowers the charted level of a scored response. */
  lemma ScoreMonotone(r1: Response, r2: Response)
    requires forall i :: 0 <= i < 10 ==> Answers(r1)[i] <= Answers(r2)[i]
    ensures ChartValue(Score(r1).predictedLevel) <= ChartValue(Score(r2).predictedLevel)
  {
    SumMonotone(Answers(r1), Answers(r2));
  }

  /** The dashboard's two chart series, index-aligned. */
  datatype Chart = Chart(labels: seq<string>, data: seq<int>)

  /** The dashboard's filter: the viewer's own responses. */
  function OwnedBy(viewer: User): Response -> bool {
    (r: Response) => r.user.id == viewer.id
  }

  /** The viewer's 30 newest responses, newest first. */
  function RecentResponses(all: seq<Response>, viewer: User): (rs: seq<Response>)
    ensures |rs| <= 30
    ensures forall i :: 0 <= i < |rs| ==> rs[i] in all && rs[i].user.id == viewer.id
    ensures Query.NewestFirst(rs, (r: Response) => r.createdAt.instant)
    ensures multiset(rs) <= multiset(all)
    ensures |rs| == if |Query.Filter(all, OwnedBy(viewer))| <= 30 then |Query.Filter(all, OwnedBy(viewer))| else 30
  {
    Query.Recent(all, OwnedBy(viewer), (r: Response) => r.createdAt.instant, 30)
  }

  /** One of the viewer's responses is left off the chart only when 30
      responses at least as new are on it. */
  lemma RecentResponsesKeepsNewest(all: seq<Response>, viewer: User, r: Response)
    requires r in all && r.user.id == viewer.id
    requires r !in RecentResponses(all, viewer)
    ensures |RecentResponses(all, viewer)| == 30
    ensures forall x :: x in RecentResponses(all, viewer) ==> x.createdAt.instant >= r.createdAt.instant
  {
    Query.RecentKeepsNewest(all, OwnedBy(viewer), (r: Response) => r.createdAt.instant, 30, r);
  }

  /** `dashboard_view`'s chart: dates and level numbers of the recent
      responses, reversed so that they run oldest first. */
  function DashboardChart(all: seq<Response>, viewer: User): (c: Chart)
    ensures |c.labels| == |c.data| == |RecentResponses(all, viewer)| <= 30
    ensures var recent := RecentResponses(all, viewer);
      forall k :: 0 <= k < |c.data| ==>
        && c.labels[k] == recent[|recent| - 1 - k].createdAt.date
        && c.data[k] == ChartValue(recent[|recent| - 1 - k].predictedLevel)
  {
    var shown := Query.Reverse(RecentResponses(all, viewer));
    Chart(seq(|shown|, k requires 0 <= k < |shown| => shown[k].createdAt.date),
          seq(|shown|, k requires 0 <= k < |shown| => ChartValue(shown[k].predictedLevel)))
  }

  /** The chart runs oldest first: its k-th point comes from a response no
      newer than the one behind point k + 1. */
  lemma DashboardChartOldestFirst(all: seq<Response>, viewer: User, k: int, l: int)
    requires 0 <= k < l < |DashboardChart(all, viewer).data|
    ensures var recent := RecentResponses(all, viewer);
      recent[|recent| - 1 - k].createdAt.instant <= recent[|recent| - 1 - l].createdAt.instant
  {
    var recent := RecentResponses(all, viewer);
    var key := (r: Response) => r.createdAt.instant;
    assert Query.NewestFirst(recent, key);
    assert key(recent[|recent| - 1 - l]) >= key(recent[|recent| - 1 - k]);
  }

  // ---------------------------------------------------------- ml prediction

  /** The names `ml_predict_view` puts in its feature dictionary. */
  const ForwardedFeatures: set<string> :=
    {"Resp_mean", "Resp_std", "TEMP_mean", "TEMP_std", "TEMP_slope", "age", "height", "weight"}

  /** The feature dictionary `ml_predict_view` builds from a submission:
      eight of the fifteen readings, each under its column name. The BVP and
      EDA readings are not among them. */
  function FeaturesDict(m: Readings): (d: map<string, real>)
    ensures d.Keys == ForwardedFeatures
    ensures forall n :: n in d ==> Reading(m, n) == Some(d[n])
  {
    map["Resp_mean" := m.respMean, "Resp_std" := m.respStd,
        "TEMP_mean" := m.tempMean, "TEMP_std" := m.tempStd, "TEMP_slope" := m.tempSlope,
        "age" := m.age as real, "height" := m.height as real, "weight" := m.weight as real]
  }

  /** What `ml_predict_view` stores when the model is not loaded. */
  const ModelNotAvailable: string := "Model not available"

  /** `ml_predict_view` on a valid submission: a loaded predictor's label is
      stored, and its confidences only when it returned a non-empty map
      (`if confidence:`), each read with a default of 0; an unloaded
      predictor leaves 'Model not available'. Nothing else changes. */
  function MlPredict<M>(data: PhysiologicalData, p: P.Predictor<M>, classify: (M, seq<real>) -> P.Inference)
    : (r: PhysiologicalData)
    ensures r.user == data.user && r.readings == data.readings && r.createdAt == data.createdAt
    ensures !P.IsLoaded(p) ==> r == data.(predictedLevel := Some(ModelNotAvailable))
    ensures P.IsLoaded(p) ==>
      var answer := P.Predict(p, classify, FeaturesDict(data.readings));
      && r.predictedLevel == Some(answer.name)
      && (if answer.confidence.Some? && |answer.confidence.value| > 0 then
            && r.confidenceAmused == Some(Get(answer.confidence.value, "Amused", 0.0))
            && r.confidenceNeutral == Some(Get(answer.confidence.value, "Neutral", 0.0))
            && r.confidenceStressed == Some(Get(answer.confidence.value, "Stressed", 0.0))
          else
            && r.confidenceAmused == data.confidenceAmused
            && r.confidenceNeutral == data.confidenceNeutral
            && r.confidenceStressed == data.confidenceStressed)
  {
    if P.IsLoaded(p) then
      var answer := P.Predict(p, classify, FeaturesDict(data.readings));
      var labelled := data.(predictedLevel := Some(answer.name));
      match answer.confidence
      case Some(c) =>
        if |c| > 0 then
          labelled.(confidenceAmused := Some(Get(c, "Amused", 0.0)),
                    confidenceNeutral := Some(Get(c, "Neutral", 0.0)),
                    confidenceStressed := Some(Get(c, "Stressed", 0.0)))
        else labelled
      case None => labelled
    else data.(predictedLevel := Some(ModelNotAvailable))
  }

  /** The view's own 'not loaded' text is not the predictor's sentinel. */
  lemma NotAvailableIsNotNotLoaded()
    ensures ModelNotAvailable != P.NotLoaded
  {
  }

  /** A fresh submission that meets a sentinel result keeps all three
      confidences null. */
  lemma SentinelLeavesConfidenceNull<M>(user: User, m: Readings, at: Timestamp,
                                         p: P.Predictor<M>, classify: (M, seq<real>) -> P.Inference)
    requires P.Predict(p, classify, FeaturesDict(m)).confidence.None?
    ensures var r := MlPredict(NewPhysiologicalData(user, m, at), p, classify);
      r.confidenceAmused.None? && r.confidenceNeutral.None? && r.confidenceStressed.None?
  {
  }

  /** With the default schema, the classifier sees 0 in every slot whose
      name is not forwarded and the submitted value in the other eight. */
  lemma OnlyForwardedReachClassifier(m: Readings)
    ensures var v := P.Vectorize(FeaturesDict(m), P.DefaultFeatures);
      forall i :: 0 <= i < |P.DefaultFeatures| ==>
        v[i] == if P.DefaultFeatures[i] in ForwardedFeatures then Reading(m, P.DefaultFeatures[i]).value else 0.0
  {
    var names := P.DefaultFeatures;
    var d := FeaturesDict(m);
    var v := P.Vectorize(d, names);
    forall i | 0 <= i < |names|
      ensures v[i] == if names[i] in ForwardedFeatures then Reading(m, names[i]).value else 0.0
    {
      if names[i] in d {
        assert Reading(m, names[i]) == Some(d[names[i]]);
      }
    }
  }

  /** A schema slot whose name is not forwarded is 0 in the vector. */
  lemma UnforwardedSlotIsZero(m: Readings, schema: seq<string>, i: int)
    requires 0 <= i < |schema| && schema[i] !in ForwardedFeatures
    ensures P.Vectorize(FeaturesDict(m), schema)[i] == 0.0
  {
  }

  /** A BVP or EDA reading's column name. */
  predicate IsBvpOrEda(name: string) {
    |name| >= 4 && (name[..4] == "BVP_" || name[..4] == "EDA_")
  }

  /** No BVP or EDA name is forwarded. */
  lemma NoBvpEdaForwarded(name: string)
    requires IsBvpOrEda(name)
    ensures name !in ForwardedFeatures
  {
    assert name[0] == name[..4][0] && name[0] in {'B', 'E'};
  }

  /** In particular every BVP and EDA slot of the vector is 0, whatever was
      submitted, under any schema. */
  lemma BvpEdaNeverForwarded(m: Readings, schema: seq<string>)
    ensures forall i :: 0 <= i < |schema| && IsBvpOrEda(schema[i]) ==>
      P.Vectorize(FeaturesDict(m), schema)[i] == 0.0
  {
    forall i | 0 <= i < |schema| && IsBvpOrEda(schema[i])
      ensures P.Vectorize(FeaturesDict(m), schema)[i] == 0.0
    {
      NoBvpEdaForwarded(schema[i]);
      UnforwardedSlotIsZero(m, schema, i);
    }
  }

  /** The BVP and EDA slots of the default schema are exactly 0-5 and 11. */
  lemma DefaultSchemaBvpEdaSlots()
    ensures forall i :: 0 <= i < |P.DefaultFeatures| ==>
      (IsBvpOrEda(P.DefaultFeatures[i]) <==> i <= 5 || i == 11)
  {
    var names := P.DefaultFeatures;
    forall i | 0 <= i < |names|
      ensures IsBvpOrEda(names[i]) <==> i <= 5 || i == 11
    {
      var n := names[i];
      if |n| >= 4 {
        assert n[..4] == [n[0], n[1], n[2], n[3]];
      }
    }
  }

  /** Under the default schema the classifier sees 0 in slots 0-5 and 11,
      whatever the BVP and EDA readings were. */
  lemma DefaultVectorDropsBvpEda(m: Readings)
    ensures var v := P.Vectorize(FeaturesDict(m), P.DefaultFeatures);
      forall i :: 0 <= i < |P.DefaultFeatures| && (i <= 5 || i == 11) ==> v[i] == 0.0
  {
    DefaultSchemaBvpEdaSlots();
    BvpEdaNeverForwarded(m, P.DefaultFeatures);
  }

  /** Submissions that differ only in their BVP and EDA readings get the
      same verdict and confidences, whatever the predictor. */
  lemma MlPredictIgnoresBvpEda<M>(data: PhysiologicalData, m: Readings,
                                   p: P.Predictor<M>, classify: (M, seq<real>) -> P.Inference)
    requires m.(bvpMean := 0.0, bvpStd := 0.0, bvpPeakFreq := 0.0,
                edaPhasicMean := 0.0, edaPhasicMin := 0.0, edaSmnaMin := 0.0, edaTonicMean := 0.0)
          == data.readings.(bvpMean := 0.0, bvpStd := 0.0, bvpPeakFreq := 0.0,
                edaPhasicMean := 0.0, edaPhasicMin := 0.0, edaSmnaMin := 0.0, edaTonicMean := 0.0)
    ensures MlPredict(data.(readings := m), p, classify) == MlPredict(data, p, classify).(readings := m)
  {
    assert FeaturesDict(m) == FeaturesDict(data.readings);
  }

  /** The feature dictionary that forwards every reading under its column
      name, which the default schema evidently expects. */
  function FullFeaturesDict(m: Readings): (d: map<string, real>)
    ensures d.Keys == set n | n in ReadingColumns
    ensures forall n :: n in d ==> Reading(m, n) == Some(d[n])
  {
    map n | n in ReadingColumns :: Reading(m, n).value
  }

  /** The sensor record's fifteen columns are exactly the default schema's names. */
  lemma ReadingColumnsMatchDefaultSchema()
    ensures |ReadingColumns| == |P.DefaultFeatures| == 15
    ensures forall n :: n in ReadingColumns <==> n in P.DefaultFeatures
  {
  }

  /** With the full dictionary every slot of the default-schema vector holds
      the submitted reading for that name. */
  lemma FullFeaturesFillDefaultSchema(m: Readings)
    ensures var v := P.Vectorize(FullFeaturesDict(m), P.DefaultFeatures);
      forall i :: 0 <= i < |P.DefaultFeatures| ==> Some(v[i]) == Reading(m, P.DefaultFeatures[i])
  {
    ReadingColumnsMatchDefaultSchema();
  }

  // -------------------------------------------------------------------- tasks

  /** `task_toggle`: flip `completed` on the task `pk` if the requester owns
      it; `None` (not found) otherwise, leaving the table as it was. */
  function TaskToggle(tasks: map<int, Task>, pk: int, requester: User): (r: Option<map<int, Task>>)
    ensures r.Some? <==> pk in tasks && tasks[pk].user.id == requester.id
    ensures r.Some? ==> r.value.Keys == tasks.Keys
    ensures r.Some? ==> r.value[pk].completed == !tasks[pk].completed
    ensures r.Some? ==> r.value[pk].(completed := tasks[pk].completed) == tasks[pk]
    ensures r.Some? ==> forall k :: k in tasks && k != pk ==> r.value[k] == tasks[k]
  {
    if pk in tasks && tasks[pk].user.id == requester.id then
      Some(tasks[pk := tasks[pk].(completed := !tasks[pk].completed)])
    else None
  }

  /** Toggling the same task twice restores the table. */
  lemma TaskToggleTwice(tasks: map<int, Task>, pk: int, requester: User)
    requires TaskToggle(tasks, pk, requester).Some?
    ensures TaskToggle(TaskToggle(tasks, pk, requester).value, pk, requester) == Some(tasks)
  {
    var once := TaskToggle(tasks, pk, requester).value;
    var twice := TaskToggle(once, pk, requester).value;
    assert twice == tasks;
  }

  /** A toggled task's display switches between 'Done' and 'Pending'. */
  lemma TaskToggleDisplay(tasks: map<int, Task>, pk: int, requester: User)
    requires TaskToggle(tasks, pk, requester).Some?
    ensures var t := TaskToggle(tasks, pk, requester).value[pk];
      TaskDisplay(t) == tasks[pk].title + (if tasks[pk].completed then " - Pending" else " - Done")
  {
    var t := TaskToggle(tasks, pk, requester).value[pk];
    TaskDisplayDone(t);
  }

  // ------------------------------------------------------------------ journal

  /** `journal_add`: the requester is attached only to a non-anonymous
      entry; nothing else changes. */
  function JournalAdd(e: JournalEntry, requester: User): (r: JournalEntry)
    ensures r.user == if e.anonymous then e.user else Some(requester)
    ensures r.(user := e.user) == e
  {
    if !e.anonymous then e.(user := Some(requester)) else e
  }

  /** A journal form submission: a new entry with the form's two fields,
      then `journal_add`. */
  function SubmitJournal(anonymous: bool, content: string, at: Timestamp, requester: User): (r: JournalEntry)
    ensures r.anonymous == anonymous && r.content == content && r.createdAt == at
  {
    JournalAdd(NewJournalEntry(content, at).(anonymous := anonymous), requester)
  }

  /** A submitted entry shows its author's name, or 'Anonymous' if so marked. */
  lemma SubmitJournalAuthor(anonymous: bool, content: string, at: Timestamp, requester: User)
    ensures JournalAuthor(SubmitJournal(anonymous, content, at, requester))
         == if anonymous then "Anonymous" else requester.username
    ensures anonymous ==> SubmitJournal(anonymous, content, at, requester).user.None?
  {
  }

  /** Whether `journal_list` shows an entry to a viewer (`None` for a
      visitor who is not logged in): anonymous entries to everyone, the
      others to their owner. */
  predicate Visible(e: JournalEntry, viewer: Option<User>) {
    e.anonymous || (viewer.Some? && e.user.Some? && e.user.value.id == viewer.value.id)
  }

  /** The journal list's filter for one viewer. */
  function VisibleTo(viewer: Option<User>): JournalEntry -> bool {
    (e: JournalEntry) => Visible(e, viewer)
  }

  /** A submitted entry is visible to everyone if anonymous, otherwise to
      its author exactly. */
  lemma SubmitJournalVisibility(anonymous: bool, content: string, at: Timestamp, author: User, viewer: User)
    ensures Visible(SubmitJournal(anonymous, content, at, author), Some(viewer))
        <==> anonymous || viewer.id == author.id
  {
  }

  /** `journal_list`: the 50 newest visible entries, newest first. */
  function JournalList(all: seq<JournalEntry>, viewer: Option<User>): (r: seq<JournalEntry>)
    ensures |r| <= 50
    ensures forall i :: 0 <= i < |r| ==> r[i] in all && Visible(r[i], viewer)
    ensures multiset(r) <= multiset(all)
    ensures Query.NewestFirst(r, (e: JournalEntry) => e.createdAt.instant)
    ensures |r| == if |Query.Filter(all, VisibleTo(viewer))| <= 50 then |Query.Filter(all, VisibleTo(viewer))| else 50
  {
    Query.Recent(all, VisibleTo(viewer), (e: JournalEntry) => e.createdAt.instant, 50)
  }

  /** A visible entry is left out of the list only when 50 entries at least
      as new are shown. */
  lemma JournalListKeepsNewest(all: seq<JournalEntry>, viewer: Option<User>, e: JournalEntry)
    requires e in all && Visible(e, viewer)
    requires e !in JournalList(all, viewer)
    ensures |JournalList(all, viewer)| == 50
    ensures forall x :: x in JournalList(all, viewer) ==> x.createdAt.instant >= e.createdAt.instant
  {
    Query.RecentKeepsNewest(all, VisibleTo(viewer), (e: JournalEntry) => e.createdAt.instant, 50, e);
  }
}
